=== FILE: README.md ===
# LiDAR HAL service — a Dafny model of its acquisition and fan-out core

This project models the two sequential cores of a service that runs one RPLIDAR
rangefinder. The first is the hardware controller (`PyRPlidarImpl`). It has a
five-state status machine, clips the motor PWM, runs a reconfiguration
sequence, and has an acquisition loop that cuts the driver's measurement
stream into full rotations. The second is the stream manager (`LidarManager`).
It converts each rotation into a scan, caches the latest scan, and fans every
scan out to bounded drop-oldest subscriber queues of capacity 10.

Every operation is a pure function over immutable state. Driver calls are
parameters that say whether the call succeeded or how it failed. A worker
thread's run is one atomic step: "the loop ends, then cleanup runs".

Modules, one per source concern:

- `Outcomes` (outcomes.dfy): `Option` for a value that may be `None`, and `Outcome` for a call that returns or raises.
- `Base` (base.dfy): the `LidarStatus` enumeration and its string values.
- `Driver` (driver.dfy): the raw measurement record, the driver's promise about each measurement, and the outcomes of driver calls.
- `Models` (models.dfy): the validated records. `LidarPoint`, `LidarConfig` and `NetworkConfig` each have a validity predicate and a validating constructor that returns `None` exactly when validation would raise. `LidarScan` has only its validity predicate; it is built by `Manager.RawCallback`.
- `Batcher` (batcher.dfy): the acquisition loop's batching. It has a one-step function, its fold over a stream, and the loop written as a method.
- `Hal` and `HalTrace` (hal.dfy): the controller state machine, and sequences of controller operations.
- `DropOldest` (drop_oldest.dfy): the bounded queue with drop-oldest insertion.
- `Manager` and `ManagerTrace` (manager.dfy): the manager's operations, and sequences of event-loop events.
- `Acquisition` (acquisition.dfy): one acquisition session end to end, from stream to batches to published scans.

Behaviour of the code that a reader might not expect, which the model keeps:

- `update_parameters` catches every failure of its driver sequence and sets ERROR (src/hardware/pyrplidar_impl.py:194-196). No exception reaches `update_config` or its caller.
- The loop never emits its trailing open batch. A stream of two clean rotations therefore yields one batch, not two (`Batcher.RotationsRoundTrip`).
- `disconnect` sets DISCONNECTED only when the driver releases the link. After a release failure the status stays where stopping left it.
- The CONNECTING status is set and then overwritten within a single `connect` call. In the atomic model `Connect` goes straight to READY or ERROR.

## Model

| member | source | states |
|---|---|---|
| Base.ValueInjective | src/hardware/base.py:5-10 | the five statuses expose five distinct string values |
| Models.MakePoint | src/core/models.py:6-11 | a point validates exactly when angle is in [0, 360], distance >= 0 and intensity >= 0; a validated point keeps its fields |
| Models.MakeConfig | src/core/models.py:21-28 | a configuration validates exactly when motor_pwm is absent or in [0, 1023]; absent fields default to baudrate 460800, timeout 3, motor_pwm 600 |
| Models.MakeNetworkConfig | src/core/models.py:31-34 | network settings validate exactly when rest_port is absent or in [1024, 65535]; the default port is 8000 |
| Models.NetworkConfigRoundTrip | src/core/models.py:31-34 | validating the port of any valid network setting gives that setting back |
| Batcher.Step | src/hardware/pyrplidar_impl.py:89-97 | a batch is emitted exactly when a flagged measurement meets a non-empty open batch; the emitted batch is the open one; a kept measurement that triggers it alone starts the next batch |
| Batcher.StepPreserves | src/hardware/pyrplidar_impl.py:89-97 | one iteration appends the measurement to what has been collected iff its quality is positive, and keeps the loop invariant |
| Batcher.FeedPreserves | src/hardware/pyrplidar_impl.py:85-97 | over a whole stream, earlier emissions stay a prefix, the invariant holds, and emitted batches plus the open batch are the positive-quality measurements in stream order |
| Batcher.ScanLoop | src/hardware/pyrplidar_impl.py:77-106 | every emitted batch is non-empty, holds only quality > 0 measurements, carries the rotation flag at most at its head, and the batches concatenate to a prefix of the filtered consumed stream |
| Batcher.Dropped | src/hardware/pyrplidar_impl.py:79-106 | the emitted batches followed by the dropped open batch are exactly the filtered consumed stream |
| Batcher.RunScanLoop | src/hardware/pyrplidar_impl.py:77-97 | the loop as written, with the stop check before each measurement, computes exactly the batches and open batch of the functional model |
| Batcher.NothingAfterStop | src/hardware/pyrplidar_impl.py:85-87 | once the stop flag is seen, nothing the driver yields afterwards influences the emitted batches |
| Batcher.EmittedIsMonotone | src/hardware/pyrplidar_impl.py:85-97 | batches emitted while reading a prefix are a prefix of those emitted while reading the whole stream |
| Batcher.BatchedFromStream | src/hardware/pyrplidar_impl.py:85-97 | every measurement in an emitted batch comes from the stream |
| Batcher.RotationsRoundTrip | src/hardware/pyrplidar_impl.py:89-97 | batching a stream of clean rotations returns every rotation except the last one, which is dropped as the open batch |
| Hal.Init | src/hardware/pyrplidar_impl.py:24-36 | a new controller is DISCONNECTED with no worker and the configured PWM, and keeps the invariant for a valid configuration |
| Hal.ValidatePwm | src/hardware/pyrplidar_impl.py:152-159 | the clipped PWM lies in [0, 1023], equals the request when the request is in range, and is the nearest bound otherwise |
| Hal.ValidatePwmIsNearest | src/hardware/pyrplidar_impl.py:152-159 | no in-range PWM is closer to the request than the clipped one |
| Hal.ValidatePwmIdempotent | src/hardware/pyrplidar_impl.py:152-159 | clipping twice gives the same value as clipping once |
| Hal.ClippingKeepsConfiguredPwm | src/hardware/pyrplidar_impl.py:152-159 | for a validated configuration, clipping its PWM is the identity |
| Hal.Connect | src/hardware/pyrplidar_impl.py:41-75 | success gives READY and no exception; a link failure gives ERROR and a connection error; any other failure gives ERROR and an initialization error; only the status changes |
| Hal.StartScanAsWritten | src/hardware/pyrplidar_impl.py:120-133 | outside READY and ERROR, start_scan is a no-op; otherwise it stores the callback, adds a worker and sets SCANNING |
| Hal.StartScanAsWrittenBreaksInv | src/hardware/pyrplidar_impl.py:120-133 | a READY controller whose worker still runs gets a second worker from start_scan |
| Hal.StartScan | src/hardware/pyrplidar_impl.py:120-133 | start_scan is also rejected while a worker runs; when accepted it gives SCANNING with the callback and one worker; it keeps the invariant |
| Hal.Cleanup | src/hardware/pyrplidar_impl.py:108-118 | cleanup gives READY unless the status is ERROR, which it keeps; nothing else changes |
| Hal.StopScan | src/hardware/pyrplidar_impl.py:135-140 | with no worker, stop_scan is a no-op; otherwise no worker remains and cleanup leaves ERROR as it is and every other status READY |
| Hal.WorkerExit | src/hardware/pyrplidar_impl.py:99-106 | a loop ended by a fault gives ERROR; an exhausted stream gives READY unless the status was ERROR; the worker is gone |
| Hal.Disconnect | src/hardware/pyrplidar_impl.py:142-150 | scanning is stopped; a successful release gives DISCONNECTED; a failed release leaves the stopped state |
| Hal.UpdateParameters | src/hardware/pyrplidar_impl.py:161-196 | no request, or one that clips to the current PWM, is a no-op; otherwise a failed stop() keeps the old PWM and a failed set_motor_pwm keeps the new one, both giving ERROR; success stores the clipped PWM and restores the prior status, resuming a scan; outside SCANNING the worker count never changes |
| HalTrace.RunKeepsInv | src/hardware/pyrplidar_impl.py:41-196 | with the intended guard, every operation sequence keeps at most one worker, the PWM in range, and a worker with a callback while SCANNING |
| HalTrace.TwoWorkersAsWritten | src/hardware/pyrplidar_impl.py:41-133 | connect, start_scan, connect, start_scan as written leaves two workers running |
| DropOldest.Put | src/core/manager.py:50-56 | a put keeps the queue within 10 items and puts the scan at the tail; a full queue loses exactly its head; the result is the newest 10 of old contents plus the scan |
| DropOldest.PutAllKeepsNewest | src/core/manager.py:50-56 | after several puts with no reads, the queue is the newest 10 of its old contents followed by the new scans |
| DropOldest.NewestFromEmpty | src/core/manager.py:23 | after M puts into an empty queue, it holds the last min(M, 10) scans in put order |
| Manager.Create | src/core/manager.py:13-19 | a new manager has no subscribers and no cached scan, and its controller is DISCONNECTED with the configured PWM |
| Manager.Status | src/core/manager.py:75-78 | the status accessor reports "disconnected", "connecting", "ready", "scanning" or "error", each exactly when the controller is in that state |
| Manager.SubscriberCount | src/core/manager.py:80-83 | the subscriber count is the number of live queues; it is zero exactly when there are none |
| Manager.Subscribe | src/core/manager.py:21-26 | subscribe adds exactly one fresh empty queue, so the subscriber count grows by one; nothing else changes |
| Manager.Unsubscribe | src/core/manager.py:28-31 | the queue is gone and other queues keep their contents; an absent queue leaves the manager unchanged; the count drops by one exactly when the queue was present |
| Manager.UnsubscribeIdempotent | src/core/manager.py:28-31 | unsubscribing twice gives the same result as unsubscribing once |
| Manager.ConvertPoints | src/core/manager.py:38-41 | conversion fails exactly when some measurement would not give a valid point; otherwise it keeps length and order and maps angle, distance and quality to angle, distance and intensity |
| Manager.RawCallback | src/core/manager.py:33-44 | the raw callback yields a valid scan carrying the converted points exactly when conversion succeeds |
| Manager.Publish | src/core/manager.py:46-56 | publish caches the scan, keeps the set of queues, and puts the scan at the tail of every queue with drop-oldest; queues stay within capacity |
| Manager.PublishAllKeepsNewest | src/core/manager.py:46-56 | after several publishes with no reads, each queue is the newest 10 of its old contents followed by the published scans |
| Manager.Start | src/core/manager.py:58-62 | with the intended start_scan guard: a failed connect is reported and leaves ERROR without starting a scan; a successful connect with no worker running ends SCANNING with the manager's callback; the controller invariant is kept |
| Manager.Stop | src/core/manager.py:64-67 | stop leaves no worker; a successful release gives DISCONNECTED, and a failed one leaves the controller exactly as stop_scan left it |
| Manager.UpdateConfig | src/core/manager.py:69-73 | the controller is reconfigured only when motor_pwm differs; the stored configuration becomes the new one in every case; on success the controller and configuration PWMs agree |
| Manager.FailedUpdateIsNeverRetried | src/core/manager.py:69-73 | after a failed driver stop() the controller keeps the old PWM while the configuration holds the new one, and the same update is never passed to the controller again |
| ManagerTrace.RunKeepsInv | src/core/manager.py:21-73 | with the intended start_scan guard, every event sequence keeps queues within capacity, queue identities fresh, and the controller invariant |
| ManagerTrace.NoPublishKeepsCache | src/core/manager.py:46-48 | events that publish nothing leave the cached scan unchanged |
| ManagerTrace.LastPublishWins | src/core/manager.py:46-48 | the cached scan is the scan of the last event that published one |
| ManagerTrace.NoScanBeforeFirstPublish | src/core/manager.py:85-88 | last_scan of a new manager is None exactly until some event publishes a scan |
| Acquisition.Deliver | src/core/manager.py:33-56 | handing batches over fails exactly when some batch fails validation; otherwise the cached scan is the conversion of the last batch and the set of queues is unchanged (what each queue holds is `Acquisition.DeliverFansOut`; what a failure leaves is `Acquisition.DeliverStopsAtFirstFailure`) |
| Acquisition.DeliverStopsAtFirstFailure | src/core/manager.py:33-44 | a batch that fails validation stops delivery: the batches before it are published as usual, and neither it nor any later batch is published |
| Acquisition.DeliverFansOut | src/core/manager.py:46-56 | when every batch validates, each queue ends as the newest 10 of its old contents followed by the converted scans in batch order |
| Acquisition.EmittedBatchConverts | src/core/manager.py:38-41 | every batch emitted from a stream that keeps the driver's promise converts to a valid, non-empty scan whose intensities are all at least 1 |
| Acquisition.SessionPublishesEveryBatch | src/hardware/pyrplidar_impl.py:85-97 | a session over a stream that keeps the driver's promise never fails validation: every emitted batch converts and is published, and the cached scan is valid and as long as the last batch |
| Acquisition.SessionFansOut | src/core/manager.py:46-56 | in such a session every queue ends as the newest 10 of its old contents followed by every emitted batch's scan, in order |

## Findings

| source | as written | input that shows it | evidently intended | confidence | as-written member | corrected member |
|---|---|---|---|---|---|---|
| src/hardware/pyrplidar_impl.py:120-133 | start_scan checks only the status, not whether an acquisition thread is still running | start the service twice. The second `connect` succeeds while the first worker runs and sets READY, so the second `start_scan` spawns a second worker | start_scan is rejected while a worker runs, so a device has at most one worker | medium, not executed | Hal.StartScanAsWritten (HalTrace.TwoWorkersAsWritten) | Hal.StartScan (HalTrace.RunKeepsInv) |

The rest of the model (`Hal.UpdateParameters`, `Manager.Start`) uses the corrected `Hal.StartScan`.

## Left out

- Manager.Start: it starts scanning through the corrected `Hal.StartScan`. As written, a start while a worker still runs spawns a second worker and breaks the controller invariant (see Findings), so its invariant clause holds only for the corrected guard.
- ManagerTrace.RunKeepsInv: it holds for the corrected start_scan guard only. With the guard as written, two successful starts leave two workers (`HalTrace.TwoWorkersAsWritten`).
- Threads and the event loop: `threading.Thread`, the stop `Event`, `join(timeout=...)`, `call_soon_threadsafe` and `asyncio.to_thread` are not modelled. A worker's run and the cross-thread hand-off are single atomic steps. The model does not cover the race in `start_scan`, which sets SCANNING only after the thread has started, or a join that times out.
- Time: the warmup sleeps are not modelled. Scan timestamps are parameters (`now`, `clock`) and are not read from a clock.
- The RPLIDAR driver: serial I/O, `get_info`/`get_health` (used only for logging) and the measurement generator. Driver calls appear only as outcome parameters, and a stream is a finite sequence.
- Hal.Cleanup: it has no driver-outcome parameter. The source swallows every failure of `stop()`/`set_motor_pwm(0)` there, so no state depends on the outcome.
- Hal.Connect: the transient CONNECTING status is not observable in the atomic model.
- Floating point: angles, distances and intensities are reals, and only bound comparisons are used.
- Logging is not modelled.
- Pydantic coercion and serialisation are not modelled, nor are the `WSMessage` envelope and `AppConfig`.
- The REST/WebSocket transport, the entry point and YAML configuration loading are not part of this model. The consumers' `queue.get()` is not modelled either: the queue properties cover publishes with no reads in between.
- Callbacks are abstract identities. A validation error raised by the manager's callback inside the worker appears as `Acquisition.Deliver` reporting a failure, and as `Hal.WorkerExit` with a fault.

=== FILE: acquisition.dfy ===
/**
 * One acquisition session end to end: the worker's loop batches the driver's
 * measurements, and the manager converts and publishes each batch in order.
 */
module Acquisition {
  import opened Outcomes
  import opened Driver
  import Models
  import Batcher
  import DropOldest
  import opened Manager

  /**
   * The manager receiving the worker's batches in order, batch `i` stamped
   * `clock(i)`. Delivery stops at the first batch whose validation fails, which
   * in the source raises inside the worker; `r.1` says whether that happened.
   */
  function Deliver(m: LidarManager, batches: seq<seq<Measurement>>, clock: nat -> real): (r: (LidarManager, bool))
    ensures r.1 <==> exists i :: 0 <= i < |batches| && RawCallback(batches[i], clock(i)).None?
    ensures !r.1 && |batches| > 0 ==>
              r.0.lastScan == RawCallback(batches[|batches| - 1], clock(|batches| - 1))
    ensures !r.1 && |batches| == 0 ==> r.0.lastScan == m.lastScan
    ensures r.0.subscribers.Keys == m.subscribers.Keys
    ensures r.0.hal == m.hal && r.0.config == m.config
    ensures Inv(m) ==> Inv(r.0)
    decreases |batches|
  {
    if |batches| == 0 then (m, false)
    else
      var n := |batches|;
      var (m1, failed) := Deliver(m, batches[..n - 1], clock);
      assert forall i :: 0 <= i < n - 1 ==> batches[..n - 1][i] == batches[i];
      if failed then (m1, true)
      else
        match RawCallback(batches[n - 1], clock(n - 1))
        case None => (m1, true)
        case Some(scan) => (Publish(m1, scan), false)
  }

  /**
   * A failing batch stops delivery: the batches before it are published as
   * usual, and neither it nor any later batch reaches the manager.
   */
  lemma {:induction false} DeliverStopsAtFirstFailure(m: LidarManager, batches: seq<seq<Measurement>>, clock: nat -> real, k: nat)
    requires k < |batches| && RawCallback(batches[k], clock(k)).None?
    requires forall i :: 0 <= i < k ==> RawCallback(batches[i], clock(i)).Some?
    ensures Deliver(m, batches, clock) == (Deliver(m, batches[..k], clock).0, true)
    decreases |batches|
  {
    var n := |batches|;
    var front := batches[..n - 1];
    assert forall i :: 0 <= i < n - 1 ==> front[i] == batches[i];
    if k < n - 1 {
      DeliverStopsAtFirstFailure(m, front, clock, k);
      assert front[..k] == batches[..k];
    } else {
      assert front == batches[..k];
      assert !Deliver(m, front, clock).1;
    }
  }

  /** The scans a successful delivery publishes, in order: batch `i` converted and stamped `clock(i)`. */
  function Scans(batches: seq<seq<Measurement>>, clock: nat -> real): (r: seq<Models.LidarScan>)
    requires forall i :: 0 <= i < |batches| ==> RawCallback(batches[i], clock(i)).Some?
    ensures |r| == |batches|
    decreases |batches|
  {
    if |batches| == 0 then []
    else
      var n := |batches|;
      assert forall i :: 0 <= i < n - 1 ==> batches[..n - 1][i] == batches[i];
      Scans(batches[..n - 1], clock) + [RawCallback(batches[n - 1], clock(n - 1)).value]
  }

  /**
   * When every batch converts, delivery fans each scan out to every subscriber:
   * each queue ends as the newest ten of its old contents followed by the scans,
   * which is what the same puts with no reads in between leave behind.
   */
  lemma {:induction false} DeliverFansOut(m: LidarManager, batches: seq<seq<Measurement>>, clock: nat -> real, id: QueueId)
    requires id in m.subscribers && |m.subscribers[id]| <= DropOldest.Capacity
    requires forall i :: 0 <= i < |batches| ==> RawCallback(batches[i], clock(i)).Some?
    ensures id in Deliver(m, batches, clock).0.subscribers
    ensures Deliver(m, batches, clock).0.subscribers[id]
            == DropOldest.LastN(m.subscribers[id] + Scans(batches, clock), DropOldest.Capacity)
    decreases |batches|
  {
    if |batches| == 0 {
      assert m.subscribers[id] + Scans(batches, clock) == m.subscribers[id];
    } else {
      var n := |batches|;
      var front := batches[..n - 1];
      var scan := RawCallback(batches[n - 1], clock(n - 1)).value;
      DeliverLast(m, batches, clock);
      DeliverFansOut(m, front, clock, id);
      var q1 := Deliver(m, front, clock).0.subscribers[id];
      assert Deliver(m, batches, clock).0.subscribers[id] == DropOldest.Put(q1, scan);
      DropOldest.PutExtendsWindow(m.subscribers[id], Scans(front, clock), scan, q1);
    }
  }

  /** When every batch converts, delivering one more batch is one more publish. */
  lemma DeliverLast(m: LidarManager, batches: seq<seq<Measurement>>, clock: nat -> real)
    requires |batches| > 0
    requires forall i :: 0 <= i < |batches| ==> RawCallback(batches[i], clock(i)).Some?
    ensures var n := |batches|;
            var scan := RawCallback(batches[n - 1], clock(n - 1)).value;
            && (forall i :: 0 <= i < n - 1 ==> RawCallback(batches[..n - 1][i], clock(i)).Some?)
            && Deliver(m, batches, clock).0 == Publish(Deliver(m, batches[..n - 1], clock).0, scan)
            && Scans(batches, clock) == Scans(batches[..n - 1], clock) + [scan]
  {
    var n := |batches|;
    assert forall i :: 0 <= i < n - 1 ==> batches[..n - 1][i] == batches[i];
    assert !Deliver(m, batches[..n - 1], clock).1;
  }

  /**
   * Every batch the loop emits from a stream the driver keeps its promises on
   * converts to a valid scan whose points all have intensity at least one, in the
   * batch's order.
   */
  lemma EmittedBatchConverts(ms: seq<Measurement>, stopAt: Option<nat>, k: nat, now: real)
    requires forall i :: 0 <= i < |ms| ==> WellFormed(ms[i])
    requires k < |Batcher.ScanLoop(ms, stopAt)|
    ensures var b := Batcher.ScanLoop(ms, stopAt)[k];
            && RawCallback(b, now).Some?
            && |RawCallback(b, now).value.points| == |b| > 0
            && forall i :: 0 <= i < |b| ==> RawCallback(b, now).value.points[i].intensity >= 1.0
  {
    var b := Batcher.ScanLoop(ms, stopAt)[k];
    assert Batcher.GoodBatch(b);
    forall i | 0 <= i < |b|
      ensures Models.ValidPoint(PointOf(b[i]))
    {
      Batcher.BatchedFromStream(ms, stopAt, k, i);
    }
  }

  /**
   * An acquisition session over a stream the driver keeps its promises on never
   * faults in the callback: every emitted batch converts and is published, and
   * the cached scan is the valid conversion of the last emitted batch.
   */
  lemma SessionPublishesEveryBatch(m: LidarManager, ms: seq<Measurement>, stopAt: Option<nat>, clock: nat -> real)
    requires forall i :: 0 <= i < |ms| ==> WellFormed(ms[i])
    ensures var bs := Batcher.ScanLoop(ms, stopAt);
            var r := Deliver(m, bs, clock);
            && !r.1
            && (|bs| > 0 ==> r.0.lastScan.Some? && Models.ValidScan(r.0.lastScan.value)
                             && |r.0.lastScan.value.points| == |bs[|bs| - 1]|)
    ensures var bs := Batcher.ScanLoop(ms, stopAt);
            forall i :: 0 <= i < |bs| ==> RawCallback(bs[i], clock(i)).Some?
  {
    var bs := Batcher.ScanLoop(ms, stopAt);
    forall i | 0 <= i < |bs|
      ensures RawCallback(bs[i], clock(i)).Some?
    {
      EmittedBatchConverts(ms, stopAt, i, clock(i));
    }
    if |bs| > 0 {
      EmittedBatchConverts(ms, stopAt, |bs| - 1, clock(|bs| - 1));
    }
  }

  /**
   * In the same session, every queue receives every emitted batch's scan in
   * order: it ends as the newest ten of its old contents followed by the scans.
   */
  lemma SessionFansOut(m: LidarManager, ms: seq<Measurement>, stopAt: Option<nat>, clock: nat -> real)
    requires Inv(m)
    requires forall i :: 0 <= i < |ms| ==> WellFormed(ms[i])
    ensures var bs := Batcher.ScanLoop(ms, stopAt);
            && (forall i :: 0 <= i < |bs| ==> RawCallback(bs[i], clock(i)).Some?)
            && forall id :: id in m.subscribers ==>
                 id in Deliver(m, bs, clock).0.subscribers
                 && Deliver(m, bs, clock).0.subscribers[id]
                    == DropOldest.LastN(m.subscribers[id] + Scans(bs, clock), DropOldest.Capacity)
  {
    var bs := Batcher.ScanLoop(ms, stopAt);
    SessionPublishesEveryBatch(m, ms, stopAt, clock);
    forall id | id in m.subscribers
      ensures id in Deliver(m, bs, clock).0.subscribers
      ensures Deliver(m, bs, clock).0.subscribers[id]
              == DropOldest.LastN(m.subscribers[id] + Scans(bs, clock), DropOldest.Capacity)
    {
      DeliverFansOut(m, bs, clock, id);
    }
  }
}

=== FILE: base.dfy ===
/** The status enumeration shared by the hardware layer and the manager. */
module Base {

  /** The five states of a LiDAR unit. */
  datatype LidarStatus = Disconnected | Connecting | Ready | Scanning | Error

  /** The string value each status exposes through the manager's `status` accessor. */
  function Value(s: LidarStatus): (v: string)
    ensures |v| > 0
  {
    match s
    case Disconnected => "disconnected"
    case Connecting => "connecting"
    case Ready => "ready"
    case Scanning => "scanning"
    case Error => "error"
  }

  /** Distinct states expose distinct values, so a client can recover the status from its value. */
  lemma ValueInjective(s: LidarStatus, t: LidarStatus)
    ensures Value(s) == Value(t) ==> s == t
  {
    if Value(s) == Value(t) {
      assert Value(s)[0] == Value(t)[0];
      if s.Connecting? || t.Connecting? {
        assert Value(s)[2] == Value(t)[2];
      }
    }
  }
}

=== FILE: batcher.dfy ===
/**
 * The rotation batching performed by the acquisition loop of the hardware layer.
 *
 * The loop walks the driver's measurement stream. Before processing a measurement
 * it checks the stop flag and leaves if it is set. A measurement carrying the
 * rotation-start flag closes the current batch, if that batch is non-empty, and
 * hands it to the callback. Then the measurement joins the (new) current batch
 * if its quality is positive. The batch still open when the loop ends is dropped.
 */
module Batcher {
  import opened Outcomes
  import opened Driver

  /** The loop's state: the batches handed to the callback so far and the open batch. */
  datatype State = State(emitted: seq<seq<Measurement>>, batch: seq<Measurement>)

  const Initial: State := State([], [])

  /** Only measurements of positive quality are kept. */
  predicate Kept(m: Measurement)
  {
    m.quality > 0
  }

  /** The kept measurements of `ms`, in stream order. */
  function Filter(ms: seq<Measurement>): (r: seq<Measurement>)
    ensures |r| <= |ms|
    ensures forall i :: 0 <= i < |r| ==> Kept(r[i])
  {
    if |ms| == 0 then [] else (if Kept(ms[0]) then [ms[0]] else []) + Filter(ms[1..])
  }

  /** The concatenation of a sequence of batches. */
  function Flatten(bs: seq<seq<Measurement>>): seq<Measurement>
  {
    if |bs| == 0 then [] else Flatten(bs[..|bs| - 1]) + bs[|bs| - 1]
  }

  /** Everything the loop has kept so far: the emitted batches followed by the open one. */
  function Collected(s: State): seq<Measurement>
  {
    Flatten(s.emitted) + s.batch
  }

  /** Only the first measurement of a batch may carry the rotation-start flag. */
  predicate FlagOnlyFirst(b: seq<Measurement>)
  {
    forall i :: 0 < i < |b| ==> !b[i].startFlag
  }

  /** A well-formed emitted batch: non-empty, all kept, flagged at most at its head. */
  predicate GoodBatch(b: seq<Measurement>)
  {
    |b| > 0 && (forall i :: 0 <= i < |b| ==> Kept(b[i])) && FlagOnlyFirst(b)
  }

  /** The invariant the loop keeps between measurements. */
  predicate Good(s: State)
  {
    && (forall k :: 0 <= k < |s.emitted| ==> GoodBatch(s.emitted[k]))
    && (forall i :: 0 <= i < |s.batch| ==> Kept(s.batch[i]))
    && FlagOnlyFirst(s.batch)
  }

  lemma FlattenSnoc(bs: seq<seq<Measurement>>, b: seq<Measurement>)
    ensures Flatten(bs + [b]) == Flatten(bs) + b
  {
    assert (bs + [b])[..|bs|] == bs;
  }

  /**
   * One iteration of the loop body. A batch is emitted exactly when the
   * measurement is flagged and the open batch is non-empty; the emitted batch is
   * the open one, and a kept measurement that triggers the emission becomes the
   * sole member of the next batch.
   */
  function Step(s: State, m: Measurement): (r: State)
    ensures |r.emitted| == |s.emitted| + 1 <==> m.startFlag && |s.batch| > 0
    ensures |r.emitted| == |s.emitted| || |r.emitted| == |s.emitted| + 1
    ensures s.emitted <= r.emitted
    ensures |r.emitted| > |s.emitted| ==> r.emitted[|s.emitted|] == s.batch
    ensures |r.emitted| > |s.emitted| ==> r.batch == (if Kept(m) then [m] else [])
  {
    var s1 := if m.startFlag && |s.batch| > 0 then State(s.emitted + [s.batch], []) else s;
    if Kept(m) then s1.(batch := s1.batch + [m]) else s1
  }

  /** One iteration loses and reorders nothing it keeps, and keeps the loop's invariant. */
  lemma StepPreserves(s: State, m: Measurement)
    ensures Collected(Step(s, m)) == Collected(s) + (if Kept(m) then [m] else [])
    ensures Good(s) ==> Good(Step(s, m))
  {
    FlattenSnoc(s.emitted, s.batch);
  }

  /** The loop over a whole stream, starting in state `s`. */
  function Feed(s: State, ms: seq<Measurement>): State
    decreases |ms|
  {
    if |ms| == 0 then s else Feed(Step(s, ms[0]), ms[1..])
  }

  /**
   * What the loop keeps over a whole stream: emission is irrevocable (earlier
   * batches stay a prefix), the invariant holds throughout, and the collected
   * measurements grow by exactly the kept part of the stream, in stream order.
   */
  lemma {:induction false} FeedPreserves(s: State, ms: seq<Measurement>)
    ensures s.emitted <= Feed(s, ms).emitted
    ensures Good(s) ==> Good(Feed(s, ms))
    ensures Collected(Feed(s, ms)) == Collected(s) + Filter(ms)
    decreases |ms|
  {
    if |ms| > 0 {
      var s1 := Step(s, ms[0]);
      var r := Feed(s1, ms[1..]);
      assert Feed(s, ms) == r;
      StepPreserves(s, ms[0]);
      FeedPreserves(s1, ms[1..]);
      assert s.emitted <= s1.emitted <= r.emitted;
      var kept := if Kept(ms[0]) then [ms[0]] else [];
      assert Filter(ms) == kept + Filter(ms[1..]);
      calc {
        Collected(r);
        Collected(s1) + Filter(ms[1..]);
        Collected(s) + kept + Filter(ms[1..]);
        Collected(s) + Filter(ms);
      }
    }
  }

  /** Feeding two stream pieces in turn is feeding their concatenation. */
  lemma {:induction false} FeedAppend(s: State, a: seq<Measurement>, b: seq<Measurement>)
    ensures Feed(s, a + b) == Feed(Feed(s, a), b)
    decreases |a|
  {
    if |a| == 0 {
      assert a + b == b;
    } else {
      assert (a + b)[1..] == a[1..] + b;
      FeedAppend(Step(s, a[0]), a[1..], b);
    }
  }

  /** Feeding one more measurement is one more loop iteration. */
  lemma FeedSnoc(s: State, ms: seq<Measurement>, m: Measurement)
    ensures Feed(s, ms + [m]) == Step(Feed(s, ms), m)
  {
    FeedAppend(s, ms, [m]);
    assert Feed(Feed(s, ms), [m]) == Feed(Step(Feed(s, ms), m), []);
  }

  /** The stream prefix the loop processes: it stops before index `stopAt` when that is inside the stream. */
  function Consumed(ms: seq<Measurement>, stopAt: Option<nat>): (r: seq<Measurement>)
    ensures r <= ms
    ensures stopAt.Some? && stopAt.value <= |ms| ==> |r| == stopAt.value
    ensures stopAt.None? || stopAt.value >= |ms| ==> r == ms
  {
    if stopAt.Some? && stopAt.value <= |ms| then ms[..stopAt.value] else ms
  }

  /**
   * The batches the loop hands to its callback when it reads `ms`, with the stop
   * flag first seen before measurement `stopAt`. Every batch is non-empty, holds
   * only positive-quality measurements and carries the rotation flag at most on its
   * first measurement. The batches followed by the dropped open batch are exactly
   * the kept measurements of the consumed stream, in stream order.
   */
  function ScanLoop(ms: seq<Measurement>, stopAt: Option<nat>): (r: seq<seq<Measurement>>)
    ensures forall k :: 0 <= k < |r| ==> GoodBatch(r[k])
    ensures exists open: seq<Measurement> :: Flatten(r) + open == Filter(Consumed(ms, stopAt))
  {
    var s := Feed(Initial, Consumed(ms, stopAt));
    FeedPreserves(Initial, Consumed(ms, stopAt));
    assert Flatten(s.emitted) + s.batch == Filter(Consumed(ms, stopAt));
    s.emitted
  }

  /** The batch the loop drops when it ends (the source never emits the trailing partial batch). */
  function Dropped(ms: seq<Measurement>, stopAt: Option<nat>): (r: seq<Measurement>)
    ensures Flatten(ScanLoop(ms, stopAt)) + r == Filter(Consumed(ms, stopAt))
    ensures forall i :: 0 <= i < |r| ==> Kept(r[i])
  {
    FeedPreserves(Initial, Consumed(ms, stopAt));
    Feed(Initial, Consumed(ms, stopAt)).batch
  }

  /**
   * The loop as written: iterate, check the stop flag, close a batch on a flagged
   * measurement, keep positive-quality measurements. It computes the same batches
   * and dropped batch as `ScanLoop`.
   */
  method RunScanLoop(ms: seq<Measurement>, stopAt: Option<nat>) returns (batches: seq<seq<Measurement>>, batch: seq<Measurement>)
    ensures batches == ScanLoop(ms, stopAt)
    ensures batch == Dropped(ms, stopAt)
  {
    batches := [];
    batch := [];
    var i := 0;
    while i < |ms|
      invariant 0 <= i <= |Consumed(ms, stopAt)|
      invariant State(batches, batch) == After(ms, i)
    {
      if stopAt.Some? && stopAt.value == i {
        break;
      }
      var m := ms[i];
      ghost var before := State(batches, batch);
      if m.startFlag && |batch| > 0 {
        batches := batches + [batch];
        batch := [];
      }
      if m.quality > 0 {
        batch := batch + [m];
      }
      assert State(batches, batch) == Step(before, m);
      i := i + 1;
    }
    AfterIsFeed(ms, i);
    LoopLeaves(ms, stopAt, i);
  }

  /** The loop's state after it has processed the first `i` measurements of `ms`. */
  function After(ms: seq<Measurement>, i: nat): State
    requires i <= |ms|
  {
    if i == 0 then Initial else Step(After(ms, i - 1), ms[i - 1])
  }

  lemma {:induction false} AfterIsFeed(ms: seq<Measurement>, i: nat)
    requires i <= |ms|
    ensures After(ms, i) == Feed(Initial, ms[..i])
  {
    if i == 0 {
      assert |ms[..0]| == 0;
    } else {
      AfterIsFeed(ms, i - 1);
      NextIteration(ms, i - 1);
      assert After(ms, i) == Step(After(ms, i - 1), ms[i - 1]);
    }
  }

  /** One iteration of the loop extends the processed prefix by one measurement. */
  lemma NextIteration(ms: seq<Measurement>, i: nat)
    requires i < |ms|
    ensures Feed(Initial, ms[..i + 1]) == Step(Feed(Initial, ms[..i]), ms[i])
  {
    assert ms[..i + 1] == ms[..i] + [ms[i]];
    FeedSnoc(Initial, ms[..i], ms[i]);
  }

  /** The loop leaves at the end of the stream or at the stop index, having processed the consumed prefix. */
  lemma LoopLeaves(ms: seq<Measurement>, stopAt: Option<nat>, i: nat)
    requires i <= |Consumed(ms, stopAt)|
    requires i == |ms| || (stopAt.Some? && stopAt.value == i)
    ensures ms[..i] == Consumed(ms, stopAt)
  {
  }

  /** Once the stop flag is seen at index `|ms|`, nothing the driver yields afterwards is batched. */
  lemma NothingAfterStop(ms: seq<Measurement>, rest: seq<Measurement>)
    ensures ScanLoop(ms + rest, Some(|ms|)) == ScanLoop(ms, None)
  {
    assert (ms + rest)[..|ms|] == ms;
  }

  /**
   * Emission is online: the batches emitted while reading a prefix of the stream
   * are a prefix of the batches emitted while reading the whole stream.
   */
  lemma EmittedIsMonotone(ms: seq<Measurement>, k: nat)
    requires k <= |ms|
    ensures ScanLoop(ms[..k], None) <= ScanLoop(ms, None)
  {
    assert ms[..k] + ms[k..] == ms;
    FeedAppend(Initial, ms[..k], ms[k..]);
    var s := Feed(Initial, ms[..k]);
    FeedPreserves(s, ms[k..]);
    assert ScanLoop(ms[..k], None) == s.emitted;
    assert ScanLoop(ms, None) == Feed(s, ms[k..]).emitted;
  }

  lemma {:induction false} InFlatten(bs: seq<seq<Measurement>>, k: nat, i: nat)
    requires k < |bs| && i < |bs[k]|
    ensures bs[k][i] in Flatten(bs)
    decreases |bs|
  {
    var n := |bs|;
    if k < n - 1 {
      InFlatten(bs[..n - 1], k, i);
    }
  }

  lemma {:induction false} FilterWithin(ms: seq<Measurement>, x: Measurement)
    requires x in Filter(ms)
    ensures x in ms
    decreases |ms|
  {
    if x != ms[0] {
      FilterWithin(ms[1..], x);
    }
  }

  /** Every measurement of every emitted batch is a measurement of the stream. */
  lemma BatchedFromStream(ms: seq<Measurement>, stopAt: Option<nat>, k: nat, i: nat)
    requires k < |ScanLoop(ms, stopAt)| && i < |ScanLoop(ms, stopAt)[k]|
    ensures ScanLoop(ms, stopAt)[k][i] in ms
  {
    var r := ScanLoop(ms, stopAt);
    InFlatten(r, k, i);
    var x := r[k][i];
    assert x in Flatten(r) + Dropped(ms, stopAt);
    FilterWithin(Consumed(ms, stopAt), x);
  }

  /** A clean rotation: non-empty, all kept, flagged exactly at its first measurement. */
  predicate Rotation(r: seq<Measurement>)
  {
    |r| > 0 && r[0].startFlag && (forall i :: 0 <= i < |r| ==> Kept(r[i])) && FlagOnlyFirst(r)
  }

  /** Unflagged kept measurements only extend the open batch. */
  lemma {:induction false} FeedUnflagged(s: State, u: seq<Measurement>)
    requires forall i :: 0 <= i < |u| ==> Kept(u[i]) && !u[i].startFlag
    ensures Feed(s, u) == State(s.emitted, s.batch + u)
    decreases |u|
  {
    if |u| == 0 {
      assert s.batch + u == s.batch;
    } else {
      FeedUnflagged(Step(s, u[0]), u[1..]);
      assert s.batch + [u[0]] + u[1..] == s.batch + u;
    }
  }

  /** A rotation closes the open batch (when non-empty) and becomes the new open batch. */
  lemma FeedRotation(s: State, r: seq<Measurement>)
    requires Rotation(r)
    ensures Feed(s, r) == State(if |s.batch| > 0 then s.emitted + [s.batch] else s.emitted, r)
  {
    assert r == [r[0]] + r[1..];
    FeedAppend(s, [r[0]], r[1..]);
    var s1 := Step(s, r[0]);
    assert Feed(s, [r[0]]) == s1;
    FeedUnflagged(s1, r[1..]);
  }

  /** One more clean rotation closes the open rotation and stays open itself. */
  lemma FeedNextRotation(front: seq<seq<Measurement>>, last: seq<Measurement>)
    requires |front| > 0 && |front[|front| - 1]| > 0 && Rotation(last)
    requires Feed(Initial, Flatten(front)) == State(front[..|front| - 1], front[|front| - 1])
    ensures Feed(Initial, Flatten(front + [last])) == State(front, last)
  {
    FlattenSnoc(front, last);
    FeedAppend(Initial, Flatten(front), last);
    var s := Feed(Initial, Flatten(front));
    FeedRotation(s, last);
    assert front[..|front| - 1] + [front[|front| - 1]] == front;
  }

  /** A single clean rotation is left open. */
  lemma FeedFirstRotation(r: seq<Measurement>)
    requires Rotation(r)
    ensures Feed(Initial, Flatten([r])) == State([], r)
  {
    var none: seq<seq<Measurement>> := [];
    FlattenSnoc(none, r);
    assert [] + [r] == [r];
    assert Flatten(none) == [];
    assert Flatten([r]) == r;
    FeedRotation(Initial, r);
  }

  /** Feeding clean rotations leaves all but the last emitted and the last one open. */
  lemma {:induction false} FeedRotations(rs: seq<seq<Measurement>>)
    requires |rs| > 0
    requires forall k :: 0 <= k < |rs| ==> Rotation(rs[k])
    ensures Feed(Initial, Flatten(rs)) == State(rs[..|rs| - 1], rs[|rs| - 1])
    decreases |rs|
  {
    var n := |rs|;
    if n == 1 {
      assert rs[..|rs| - 1] + [rs[|rs| - 1]] == rs;
      assert [] + [rs[0]] == [rs[0]];
      FeedFirstRotation(rs[0]);
    } else {
      var front := rs[..n - 1];
      assert forall k :: 0 <= k < |front| ==> Rotation(front[k]) by {
        forall k | 0 <= k < |front| ensures Rotation(front[k]) {
          assert front[k] == rs[k];
        }
      }
      FeedRotations(front);
      FeedNextRotation(front, rs[n - 1]);
      assert rs[..|rs| - 1] + [rs[|rs| - 1]] == rs;
    }
  }

  /**
   * Round trip: batching a stream made of clean rotations hands back every
   * rotation but the last, which stays open and is dropped when the loop ends.
   */
  lemma RotationsRoundTrip(rs: seq<seq<Measurement>>)
    requires |rs| > 0
    requires forall k :: 0 <= k < |rs| ==> Rotation(rs[k])
    ensures ScanLoop(Flatten(rs), None) == rs[..|rs| - 1]
    ensures Dropped(Flatten(rs), None) == rs[|rs| - 1]
  {
    FeedRotations(rs);
    assert Consumed(Flatten(rs), None) == Flatten(rs);
  }
}

=== FILE: driver.dfy ===
/**
 * The surface of the external RPLIDAR driver that the hardware layer consumes.
 * The driver itself (serial framing, checksums, the measurement generator) is
 * not modelled; its calls appear only as measurements and success/failure outcomes.
 */
module Driver {

  /** One raw measurement yielded by the driver's scan generator. */
  datatype Measurement = Measurement(angle: real, distance: real, quality: int, startFlag: bool)

  /** What the driver promises about each measurement it yields. */
  predicate WellFormed(m: Measurement)
  {
    0.0 <= m.angle < 360.0 && 0.0 <= m.distance && 0 <= m.quality
  }

  /** How the driver calls made by `connect` end. */
  datatype ConnectOutcome =
    | Connected      // every call succeeds
    | LinkFailure    // the driver raises its connection error
    | SetupFailure   // any other exception during connect, info, health or set-PWM

  /** How the `stop()` then `set_motor_pwm(..)` pair of driver calls ends. */
  datatype MotorOutcome =
    | MotorOk        // both calls succeed
    | StopFails      // `stop()` raises; `set_motor_pwm` is never reached
    | SetPwmFails    // `stop()` succeeds, `set_motor_pwm` raises
}

=== FILE: drop_oldest.dfy ===
/**
 * A bounded FIFO subscriber queue with drop-oldest insertion: when the queue is
 * full its oldest item is taken out before the new item is put at the tail.
 */
module DropOldest {

  /** Every subscriber queue holds at most ten scans. */
  const Capacity: nat := 10

  /** The last `n` items of `s` (all of `s` when it is shorter). */
  function LastN<T>(s: seq<T>, n: nat): (r: seq<T>)
    ensures |r| == if |s| < n then |s| else n
    ensures forall i :: 0 <= i < |r| ==> r[i] == s[|s| - |r| + i]
  {
    if |s| <= n then s else s[|s| - n..]
  }

  /**
   * Non-blocking put: a full queue first loses its oldest item. The queue stays
   * within capacity, the new item is at the tail, and the result is the last
   * `Capacity` items of the old contents followed by the new item.
   */
  function Put<T>(q: seq<T>, x: T): (r: seq<T>)
    ensures |q| <= Capacity ==> |r| <= Capacity
    ensures |r| > 0 && r[|r| - 1] == x
    ensures |q| < Capacity ==> r == q + [x]
    ensures |q| >= Capacity ==> r[..|r| - 1] == q[1..]
    ensures |q| <= Capacity ==> r == LastN(q + [x], Capacity)
  {
    if |q| >= Capacity then q[1..] + [x] else q + [x]
  }

  /** Putting several items in order, with no reads in between. */
  function PutAll<T>(q: seq<T>, xs: seq<T>): (r: seq<T>)
    ensures |q| <= Capacity ==> |r| <= Capacity
    decreases |xs|
  {
    if |xs| == 0 then q else PutAll(Put(q, xs[0]), xs[1..])
  }

  /**
   * After several puts with no reads, the queue holds the last `Capacity` items of
   * its old contents followed by the new items, in put order.
   */
  lemma {:induction false} PutAllKeepsNewest<T>(q: seq<T>, xs: seq<T>)
    requires |q| <= Capacity
    ensures PutAll(q, xs) == LastN(q + xs, Capacity)
    decreases |xs|
  {
    if |xs| > 0 {
      PutAllKeepsNewest(Put(q, xs[0]), xs[1..]);
      PutThenLastN(q, xs);
    }
  }

  lemma PutThenLastN<T>(q: seq<T>, xs: seq<T>)
    requires |q| <= Capacity && |xs| > 0
    ensures LastN(Put(q, xs[0]) + xs[1..], Capacity) == LastN(q + xs, Capacity)
  {
    LastNOfConcat(q + [xs[0]], xs[1..]);
    assert q + [xs[0]] + xs[1..] == q + xs;
  }

  lemma LastNOfConcat<T>(a: seq<T>, b: seq<T>)
    ensures LastN(LastN(a, Capacity) + b, Capacity) == LastN(a + b, Capacity)
  {
  }

  /**
   * One more put after puts that left the newest items of `q + before` extends
   * that window by the new item.
   */
  lemma PutExtendsWindow<T>(q: seq<T>, before: seq<T>, x: T, q1: seq<T>)
    requires |q| <= Capacity && q1 == LastN(q + before, Capacity)
    ensures Put(q1, x) == LastN(q + (before + [x]), Capacity)
  {
    LastNOfConcat(q + before, [x]);
    assert q + before + [x] == q + (before + [x]);
  }

  /** From an empty queue, `m` puts leave the last min(m, Capacity) items in put order. */
  lemma NewestFromEmpty<T>(xs: seq<T>)
    ensures |PutAll([], xs)| == if |xs| < Capacity then |xs| else Capacity
    ensures PutAll([], xs) == LastN(xs, Capacity)
  {
    PutAllKeepsNewest([], xs);
    assert [] + xs == xs;
  }
}

=== FILE: hal.dfy ===
/**
 * The hardware controller of one RPLIDAR unit as a pure state machine.
 *
 * Every public operation is a function from the controller state (and the
 * outcomes of the driver calls it makes) to the next state. The acquisition
 * worker thread is atomic here: `StopScan` is "the loop sees the stop flag, then
 * cleanup runs", and `WorkerExit` is "the loop ends on its own, then cleanup runs".
 * The batches the worker produces are described by the `Batcher` module.
 */
module Hal {
  import opened Outcomes
  import opened Base
  import opened Driver
  import Models

  const MinPwm: int := 0
  const MaxPwm: int := 1023
  const DefaultPwm: int := 600

  /** The callback handed to `start_scan`, identified abstractly. */
  type CallbackId = nat

  /**
   * The controller's state: its status, the motor PWM it holds, the callback of
   * the last accepted `start_scan`, and the number of acquisition worker threads
   * still running.
   */
  datatype Controller = Controller(status: LidarStatus, pwm: int, callback: Option<CallbackId>, workers: nat)

  /**
   * The two kinds of exception `connect` lets escape. The source re-raises the
   * driver's own exception; these names only record which handler caught it:
   * the driver's connection-error handler, or the handler for anything else.
   */
  datatype HalError = ConnectionError | InitializationError

  /** How an acquisition loop ended without being asked to stop. */
  datatype LoopEnd = Exhausted | Faulted

  /**
   * The invariant the controller keeps: a PWM within the motor's limits, at most
   * one worker, and a running worker with a callback whenever the status is SCANNING.
   */
  predicate Inv(c: Controller)
  {
    && MinPwm <= c.pwm <= MaxPwm
    && c.workers <= 1
    && (c.status == Scanning ==> c.workers == 1 && c.callback.Some?)
  }

  /** A fresh controller built from a configuration: disconnected, no worker, the configured PWM. */
  function Init(config: Models.LidarConfig): (c: Controller)
    ensures c.status == Disconnected && c.workers == 0 && c.callback.None?
    ensures c.pwm == config.motorPwm
    ensures Models.ValidConfig(config) ==> Inv(c)
  {
    Controller(Disconnected, config.motorPwm, None, 0)
  }

  /**
   * Clipping of a requested PWM to the motor's limits. The result is the value
   * in [0, 1023] nearest to the request; in-range values come back unchanged.
   */
  function ValidatePwm(p: int): (r: int)
    ensures MinPwm <= r <= MaxPwm
    ensures MinPwm <= p <= MaxPwm ==> r == p
    ensures p < MinPwm ==> r == MinPwm
    ensures p > MaxPwm ==> r == MaxPwm
  {
    if !(MinPwm <= p <= MaxPwm) then
      var lower := if p < MaxPwm then p else MaxPwm;
      if MinPwm < lower then lower else MinPwm
    else
      p
  }

  function Distance(a: int, b: int): nat
  {
    if a < b then b - a else a - b
  }

  /** No in-range PWM is closer to the request than the clipped one. */
  lemma ValidatePwmIsNearest(p: int, q: int)
    requires MinPwm <= q <= MaxPwm
    ensures Distance(ValidatePwm(p), p) <= Distance(q, p)
  {
  }

  /** A validated configuration's PWM is already within the motor's limits, so clipping keeps it. */
  lemma ClippingKeepsConfiguredPwm(config: Models.LidarConfig)
    requires Models.ValidConfig(config)
    ensures ValidatePwm(config.motorPwm) == config.motorPwm
  {
  }

  /** Clipping twice is clipping once. */
  lemma ValidatePwmIdempotent(p: int)
    ensures ValidatePwm(ValidatePwm(p)) == ValidatePwm(p)
  {
  }

  /**
   * `connect`: open the link, read info and health, apply the stored PWM and warm
   * up. On success the status is READY; on any failure it is ERROR and the
   * exception escapes, classified as a link failure or anything else. Nothing
   * but the status changes.
   */
  function Connect(c: Controller, outcome: ConnectOutcome): (r: (Controller, Outcome<HalError>))
    ensures r.1.Returned? <==> outcome == Connected
    ensures r.0.status == (if r.1.Returned? then Ready else Error)
    ensures outcome == LinkFailure ==> r.1 == Raised(ConnectionError)
    ensures outcome == SetupFailure ==> r.1 == Raised(InitializationError)
    ensures r.0 == c.(status := r.0.status)
    ensures Inv(c) ==> Inv(r.0)
  {
    match outcome
    case Connected => (c.(status := Ready), Returned)
    case LinkFailure => (c.(status := Error), Raised(ConnectionError))
    case SetupFailure => (c.(status := Error), Raised(InitializationError))
  }

  /** The statuses `start_scan` accepts. */
  predicate StartableStatus(s: LidarStatus)
  {
    s == Ready || s == Error
  }

  /**
   * `start_scan` as the source writes it: accepted when the status is READY or
   * ERROR, whatever threads are still running; it stores the callback, spawns a
   * worker and sets SCANNING. Otherwise it is a no-op.
   */
  function StartScanAsWritten(c: Controller, callback: CallbackId): (r: Controller)
    ensures !StartableStatus(c.status) ==> r == c
    ensures StartableStatus(c.status) ==> r.status == Scanning && r.callback == Some(callback)
    ensures StartableStatus(c.status) ==> r.workers == c.workers + 1 && r.pwm == c.pwm
  {
    if !StartableStatus(c.status) then c
    else c.(callback := Some(callback), workers := c.workers + 1, status := Scanning)
  }

  /** A worker is running while the status is READY, a state `connect` reaches. */
  lemma StartScanAsWrittenBreaksInv(callback: CallbackId)
    ensures var c := Controller(Ready, DefaultPwm, Some(callback), 1);
            Inv(c) && !Inv(StartScanAsWritten(c, callback))
  {
  }

  /**
   * `start_scan` with the guard that keeps one worker per device: it is also
   * rejected while an acquisition worker is still running, so at most one worker
   * ever exists. This is the corrected form of `StartScanAsWritten`.
   */
  function StartScan(c: Controller, callback: CallbackId): (r: Controller)
    ensures !(StartableStatus(c.status) && c.workers == 0) ==> r == c
    ensures StartableStatus(c.status) && c.workers == 0 ==>
              r == c.(status := Scanning, callback := Some(callback), workers := 1)
    ensures r.workers <= 1 || r == c
    ensures Inv(c) ==> Inv(r)
  {
    if StartableStatus(c.status) && c.workers == 0 then StartScanAsWritten(c, callback)
    else c
  }

  /**
   * `_cleanup`, run when the acquisition loop ends: stop the driver and the
   * motor, swallowing any driver failure, then READY unless the status is ERROR.
   * Driver failures have no outcome here because none of them can escape.
   */
  function Cleanup(c: Controller): (r: Controller)
    ensures r.status == Ready || r.status == Error
    ensures r.status == Error <==> c.status == Error
    ensures r == c.(status := r.status)
  {
    if c.status != Error then c.(status := Ready) else c
  }

  /**
   * `stop_scan`: when a worker is running, raise the stop flag and join it; the
   * loop leaves at its next measurement and cleanup runs. With no worker it is a
   * no-op. The stop flag is shared, so every running worker leaves.
   */
  function StopScan(c: Controller): (r: Controller)
    ensures r.workers == 0
    ensures c.workers == 0 ==> r == c
    ensures c.workers > 0 ==> r.status == (if c.status == Error then Error else Ready)
    ensures r.pwm == c.pwm && r.callback == c.callback
    ensures Inv(c) ==> Inv(r)
  {
    if c.workers > 0 then Cleanup(c.(workers := 0)) else c
  }

  /**
   * A worker whose loop ends without a stop request: the driver's stream ran out,
   * or a driver or callback exception ended it (status ERROR). Cleanup runs either way.
   */
  function WorkerExit(c: Controller, end: LoopEnd): (r: Controller)
    requires c.workers > 0
    ensures r.workers == c.workers - 1
    ensures end == Faulted ==> r.status == Error
    ensures end == Exhausted ==> (r.status == Error <==> c.status == Error)
    ensures r.status == Ready || r.status == Error
    ensures r.pwm == c.pwm && r.callback == c.callback
    ensures Inv(c) ==> Inv(r)
  {
    var c1 := if end == Faulted then c.(status := Error) else c;
    Cleanup(c1.(workers := c.workers - 1))
  }

  /**
   * `disconnect`: stop scanning, then release the driver. The status becomes
   * DISCONNECTED only when the release succeeds; a release failure is swallowed
   * and leaves the status where stopping left it.
   */
  function Disconnect(c: Controller, releaseOk: bool): (r: Controller)
    ensures r.workers == 0
    ensures releaseOk ==> r.status == Disconnected
    ensures !releaseOk ==> r == StopScan(c)
    ensures r.pwm == c.pwm
    ensures Inv(c) ==> Inv(r)
  {
    var c1 := StopScan(c);
    if releaseOk then c1.(status := Disconnected) else c1
  }

  /**
   * `update_parameters`: the motor reconfiguration sequence. With no request, or
   * a request that clips to the current PWM, nothing happens. Otherwise a running
   * scan is stopped, the driver is stopped, the clipped PWM is stored and applied,
   * and the scan resumes with the same callback. A failing `stop()` leaves the old
   * PWM stored; a failing `set_motor_pwm` leaves the new one stored; either
   * failure sets ERROR and is swallowed, so the scan does not resume.
   */
  function UpdateParameters(c: Controller, motorPwm: Option<int>, outcome: MotorOutcome): (r: Controller)
    ensures motorPwm.None? ==> r == c
    ensures motorPwm.Some? && ValidatePwm(motorPwm.value) == c.pwm ==> r == c
    ensures motorPwm.Some? && ValidatePwm(motorPwm.value) != c.pwm ==>
              && r.pwm == (if outcome == StopFails then c.pwm else ValidatePwm(motorPwm.value))
              && (outcome != MotorOk ==> r.status == Error)
              && r.callback == c.callback
    ensures Inv(c) && motorPwm.Some? && outcome == MotorOk ==>
              r.status == c.status && r.pwm == ValidatePwm(motorPwm.value) && r.workers == c.workers
    ensures Inv(c) && c.status == Scanning && outcome != MotorOk && r != c ==> r.workers == 0
    ensures c.status != Scanning ==> r.workers == c.workers
    ensures Inv(c) ==> Inv(r)
  {
    if motorPwm.None? then c
    else
      var newPwm := ValidatePwm(motorPwm.value);
      if newPwm == c.pwm then c
      else
        var wasScanning := c.status == Scanning;
        var c1 := if wasScanning then StopScan(c) else c;
        match outcome
        case StopFails => c1.(status := Error)
        case SetPwmFails => c1.(pwm := newPwm, status := Error)
        case MotorOk =>
          var c2 := c1.(pwm := newPwm);
          if wasScanning && c.callback.Some? then StartScan(c2, c.callback.value) else c2
  }
}

/** Sequences of controller operations, with the source's and the intended `start_scan`. */
module HalTrace {
  import opened Outcomes
  import opened Base
  import opened Driver
  import Models
  import opened Hal

  /** One public operation, or the worker ending on its own, with its driver outcomes. */
  datatype Op =
    | ConnectOp(connect: ConnectOutcome)
    | StartScanOp(callback: CallbackId)
    | StopScanOp
    | WorkerExitOp(end: LoopEnd)
    | DisconnectOp(releaseOk: bool)
    | UpdateParametersOp(motorPwm: Option<int>, motor: MotorOutcome)

  /** One step; a worker can only exit while one is running. */
  function Apply(c: Controller, op: Op, asWritten: bool): Controller
  {
    match op
    case ConnectOp(o) => Connect(c, o).0
    case StartScanOp(cb) => if asWritten then StartScanAsWritten(c, cb) else StartScan(c, cb)
    case StopScanOp => StopScan(c)
    case WorkerExitOp(e) => if c.workers > 0 then WorkerExit(c, e) else c
    case DisconnectOp(ok) => Disconnect(c, ok)
    case UpdateParametersOp(p, o) => UpdateParameters(c, p, o)
  }

  function Run(c: Controller, ops: seq<Op>, asWritten: bool): Controller
  {
    if |ops| == 0 then c else Apply(Run(c, ops[..|ops| - 1], asWritten), ops[|ops| - 1], asWritten)
  }

  /**
   * With the intended `start_scan`, every sequence of operations keeps the
   * invariant: in particular at most one acquisition worker ever runs and the
   * PWM stays within the motor's limits.
   */
  lemma {:induction false} RunKeepsInv(c: Controller, ops: seq<Op>)
    requires Inv(c)
    ensures Inv(Run(c, ops, false))
    ensures Run(c, ops, false).workers <= 1
    decreases |ops|
  {
    if |ops| > 0 {
      RunKeepsInv(c, ops[..|ops| - 1]);
    }
  }

  /**
   * With the source's `start_scan`, connecting again while scanning and then
   * starting again leaves two acquisition workers running.
   */
  lemma TwoWorkersAsWritten(config: Models.LidarConfig, callback: CallbackId)
    ensures var ops := [ConnectOp(Connected), StartScanOp(callback), ConnectOp(Connected), StartScanOp(callback)];
            Run(Init(config), ops, true).workers == 2
  {
    var ops := [ConnectOp(Connected), StartScanOp(callback), ConnectOp(Connected), StartScanOp(callback)];
    var c0 := Init(config);
    assert ops[..0] == [];
    assert ops[..1][..0] == [] && ops[..2][..1] == ops[..1] && ops[..3][..2] == ops[..2] && ops[..4][..3] == ops[..3];
    assert Run(c0, ops[..1][..0], true) == c0;
    var c1 := Run(c0, ops[..1], true);
    assert c1.status == Ready && c1.workers == 0;
    var c2 := Run(c0, ops[..2], true);
    assert c2.status == Scanning && c2.workers == 1;
    var c3 := Run(c0, ops[..3], true);
    assert c3.status == Ready && c3.workers == 1;
    assert ops[..4] == ops;
  }
}

=== FILE: manager.dfy ===
/**
 * The stream manager: it owns the controller, the subscriber queues and the
 * cached last scan, converts the worker's raw batches into scans and fans each
 * scan out to every subscriber with drop-oldest puts.
 *
 * The hand-off from the worker thread to the event loop is a single atomic step
 * here: a raw batch is converted and published in one event.
 */
module Manager {
  import opened Outcomes
  import opened Base
  import opened Driver
  import Models
  import Hal
  import Batcher
  import DropOldest

  /** The identity of a subscriber queue. */
  type QueueId = nat

  /** The identity of the manager's raw-measurement callback, the only one it hands to the controller. */
  const RawCallbackId: Hal.CallbackId := 0

  datatype LidarManager = LidarManager(
    config: Models.LidarConfig,
    hal: Hal.Controller,
    subscribers: map<QueueId, seq<Models.LidarScan>>,
    lastScan: Option<Models.LidarScan>,
    nextId: QueueId)

  /**
   * The manager's invariant: a valid configuration, a controller keeping its own
   * invariant, queue identities never reissued, and every queue within capacity.
   */
  predicate Inv(m: LidarManager)
  {
    && Models.ValidConfig(m.config)
    && Hal.Inv(m.hal)
    && (forall id :: id in m.subscribers ==> id < m.nextId && |m.subscribers[id]| <= DropOldest.Capacity)
  }

  /** A new manager: no subscribers, no scan yet, a disconnected controller built from the configuration. */
  function Create(config: Models.LidarConfig): (m: LidarManager)
    ensures m.lastScan.None? && |m.subscribers| == 0
    ensures m.hal.status == Disconnected && m.hal.pwm == config.motorPwm && m.config == config
    ensures Models.ValidConfig(config) ==> Inv(m)
  {
    LidarManager(config, Hal.Init(config), map[], None, 0)
  }

  /** The `status` accessor: the controller's status value. */
  function Status(m: LidarManager): (v: string)
    ensures v == "scanning" <==> m.hal.status == Scanning
    ensures v == "ready" <==> m.hal.status == Ready
    ensures v == "disconnected" <==> m.hal.status == Disconnected
    ensures v == "connecting" <==> m.hal.status == Connecting
    ensures v == "error" <==> m.hal.status == Error
  {
    Value(m.hal.status)
  }

  /** The `subscriber_count` accessor: the number of live subscriber queues. */
  function SubscriberCount(m: LidarManager): (n: nat)
    ensures n == |m.subscribers.Keys|
    ensures n == 0 <==> m.subscribers == map[]
    ensures forall id :: id in m.subscribers ==> n > 0
  {
    |m.subscribers|
  }

  /**
   * `subscribe`: register one fresh, empty queue. The count grows by exactly one
   * and no existing queue or other field changes.
   */
  function Subscribe(m: LidarManager): (r: (LidarManager, QueueId))
    ensures r.0.subscribers == m.subscribers[r.1 := []]
    ensures Inv(m) ==> r.1 !in m.subscribers && SubscriberCount(r.0) == SubscriberCount(m) + 1
    ensures Inv(m) ==> Inv(r.0)
    ensures r.0.lastScan == m.lastScan && r.0.hal == m.hal && r.0.config == m.config
  {
    var id := m.nextId;
    (m.(subscribers := m.subscribers[id := []], nextId := id + 1), id)
  }

  /**
   * `unsubscribe`: discard the queue if it is registered. An absent queue leaves
   * the manager unchanged, every other queue keeps its contents, and the count
   * drops by one exactly when the queue was registered.
   */
  function Unsubscribe(m: LidarManager, id: QueueId): (r: LidarManager)
    ensures id !in r.subscribers
    ensures forall k :: k != id ==> (k in r.subscribers <==> k in m.subscribers)
    ensures forall k :: k != id && k in r.subscribers ==> r.subscribers[k] == m.subscribers[k]
    ensures id !in m.subscribers ==> r == m
    ensures SubscriberCount(r) == SubscriberCount(m) - (if id in m.subscribers then 1 else 0)
    ensures r.lastScan == m.lastScan && r.hal == m.hal && r.config == m.config
    ensures Inv(m) ==> Inv(r)
  {
    if id in m.subscribers then
      assert m.subscribers.Keys == (m.subscribers - {id}).Keys + {id};
      m.(subscribers := m.subscribers - {id})
    else
      assert m.subscribers - {id} == m.subscribers;
      m
  }

  /** Unsubscribing twice is unsubscribing once. */
  lemma UnsubscribeIdempotent(m: LidarManager, id: QueueId)
    ensures Unsubscribe(Unsubscribe(m, id), id) == Unsubscribe(m, id)
  {
  }

  /** The point a raw measurement becomes: its angle and distance, its quality as intensity. */
  function PointOf(ms: Measurement): Models.LidarPoint
  {
    Models.LidarPoint(ms.angle, ms.distance, ms.quality as real)
  }

  /**
   * The point conversion of `_raw_callback`. It fails exactly when some
   * measurement does not make a valid point; otherwise it keeps the length and
   * the order and converts each measurement on its own.
   */
  function ConvertPoints(ms: seq<Measurement>): (r: Option<seq<Models.LidarPoint>>)
    ensures r.Some? <==> forall i :: 0 <= i < |ms| ==> Models.ValidPoint(PointOf(ms[i]))
    ensures r.Some? ==> |r.value| == |ms|
    ensures r.Some? ==> forall i :: 0 <= i < |ms| ==> r.value[i] == PointOf(ms[i])
    ensures r.Some? ==> forall i :: 0 <= i < |r.value| ==> Models.ValidPoint(r.value[i])
    decreases |ms|
  {
    if |ms| == 0 then Some([])
    else
      var m := ms[0];
      match Models.MakePoint(m.angle, m.distance, m.quality as real)
      case None => None
      case Some(p) =>
        match ConvertPoints(ms[1..])
        case None => None
        case Some(rest) => Some([p] + rest)
  }

  /** `_raw_callback`: a raw batch becomes a scan stamped `now`, or validation raises. */
  function RawCallback(ms: seq<Measurement>, now: real): (r: Option<Models.LidarScan>)
    ensures r.Some? <==> ConvertPoints(ms).Some?
    ensures r.Some? ==> r.value.timestamp == now && r.value.points == ConvertPoints(ms).value
    ensures r.Some? ==> Models.ValidScan(r.value)
  {
    match ConvertPoints(ms)
    case None => None
    case Some(points) => Some(Models.LidarScan(now, points))
  }

  /**
   * `_publish`: cache the scan and put it into every registered queue with
   * drop-oldest. The set of queues does not change and every queue stays within
   * capacity, its new tail being the scan.
   */
  function Publish(m: LidarManager, scan: Models.LidarScan): (r: LidarManager)
    ensures r.lastScan == Some(scan)
    ensures r.subscribers.Keys == m.subscribers.Keys
    ensures forall id :: id in r.subscribers ==> r.subscribers[id] == DropOldest.Put(m.subscribers[id], scan)
    ensures forall id :: id in r.subscribers ==> |r.subscribers[id]| > 0 && r.subscribers[id][|r.subscribers[id]| - 1] == scan
    ensures r.config == m.config && r.hal == m.hal && r.nextId == m.nextId
    ensures Inv(m) ==> Inv(r)
  {
    m.(lastScan := Some(scan),
       subscribers := map id | id in m.subscribers :: DropOldest.Put(m.subscribers[id], scan))
  }

  /** Publishing several scans in order, with no reads and no (un)subscribes in between. */
  function PublishAll(m: LidarManager, scans: seq<Models.LidarScan>): (r: LidarManager)
    ensures r.subscribers.Keys == m.subscribers.Keys
    decreases |scans|
  {
    if |scans| == 0 then m else PublishAll(Publish(m, scans[0]), scans[1..])
  }

  lemma {:induction false} PublishAllIsPutAll(m: LidarManager, scans: seq<Models.LidarScan>, id: QueueId)
    requires id in m.subscribers
    ensures PublishAll(m, scans).subscribers[id] == DropOldest.PutAll(m.subscribers[id], scans)
    decreases |scans|
  {
    if |scans| > 0 {
      PublishAllIsPutAll(Publish(m, scans[0]), scans[1..], id);
    }
  }

  /**
   * After several publishes with no reads, every queue holds the newest
   * `Capacity` scans of its old contents followed by the published scans, in
   * publish order; from an empty queue, the last min(M, 10) of M scans.
   */
  lemma PublishAllKeepsNewest(m: LidarManager, scans: seq<Models.LidarScan>, id: QueueId)
    requires Inv(m)
    requires id in m.subscribers
    ensures id in PublishAll(m, scans).subscribers
    ensures PublishAll(m, scans).subscribers[id] == DropOldest.LastN(m.subscribers[id] + scans, DropOldest.Capacity)
  {
    PublishAllIsPutAll(m, scans, id);
    DropOldest.PutAllKeepsNewest(m.subscribers[id], scans);
  }

  /**
   * `start`: connect (off the event loop), then start scanning with the raw
   * callback. A failed connect raises and scanning is not started. Scanning is
   * started through the corrected `Hal.StartScan`, so a start while a worker
   * still runs does not spawn a second one (see `Hal.StartScanAsWritten`).
   */
  function Start(m: LidarManager, outcome: ConnectOutcome): (r: (LidarManager, Outcome<Hal.HalError>))
    ensures r.1 == Hal.Connect(m.hal, outcome).1
    ensures r.1.Raised? ==> r.0.hal.status == Error && r.0.hal.workers == m.hal.workers
    ensures r.1.Returned? && m.hal.workers == 0 ==>
              r.0.hal.status == Scanning && r.0.hal.callback == Some(RawCallbackId) && r.0.hal.workers == 1
    ensures r.0.subscribers == m.subscribers && r.0.lastScan == m.lastScan && r.0.config == m.config
    ensures Inv(m) ==> Inv(r.0)
  {
    var (hal, out) := Hal.Connect(m.hal, outcome);
    if out.Raised? then (m.(hal := hal), out)
    else (m.(hal := Hal.StartScan(hal, RawCallbackId)), Returned)
  }

  /** `stop`: disconnect the controller. */
  function Stop(m: LidarManager, releaseOk: bool): (r: LidarManager)
    ensures r.hal.workers == 0
    ensures releaseOk ==> r.hal.status == Disconnected
    ensures !releaseOk ==> r.hal == Hal.StopScan(m.hal)
    ensures r.subscribers == m.subscribers && r.lastScan == m.lastScan && r.config == m.config
    ensures Inv(m) ==> Inv(r)
  {
    m.(hal := Hal.Disconnect(m.hal, releaseOk))
  }

  /**
   * `update_config`: the controller is reconfigured only when the motor PWM
   * differs from the stored configuration; afterwards the stored configuration
   * is the new one whatever the controller's outcome. A successful
   * reconfiguration keeps the controller's PWM equal to the configured one.
   */
  function UpdateConfig(m: LidarManager, newConfig: Models.LidarConfig, outcome: MotorOutcome): (r: LidarManager)
    ensures r.config == newConfig
    ensures newConfig.motorPwm == m.config.motorPwm ==> r.hal == m.hal
    ensures newConfig.motorPwm != m.config.motorPwm ==>
              r.hal == Hal.UpdateParameters(m.hal, Some(newConfig.motorPwm), outcome)
    ensures Inv(m) && Models.ValidConfig(newConfig) && m.hal.pwm == m.config.motorPwm && outcome == MotorOk ==>
              r.hal.pwm == r.config.motorPwm && r.hal.status == m.hal.status
    ensures r.subscribers == m.subscribers && r.lastScan == m.lastScan
    ensures Inv(m) && Models.ValidConfig(newConfig) ==> Inv(r)
  {
    var hal := if newConfig.motorPwm != m.config.motorPwm
               then Hal.UpdateParameters(m.hal, Some(newConfig.motorPwm), outcome)
               else m.hal;
    m.(config := newConfig, hal := hal)
  }

  /**
   * A reconfiguration whose driver `stop()` fails leaves the controller on the old
   * PWM while the stored configuration already holds the new one; repeating the
   * same update then never reaches the controller, whatever the driver does.
   */
  lemma FailedUpdateIsNeverRetried(m: LidarManager, newConfig: Models.LidarConfig)
    requires Inv(m) && m.hal.pwm == m.config.motorPwm
    requires Models.ValidConfig(newConfig) && newConfig.motorPwm != m.config.motorPwm
    ensures var r := UpdateConfig(m, newConfig, StopFails);
            && r.hal.pwm != r.config.motorPwm
            && r.hal.status == Error
            && forall o :: UpdateConfig(r, newConfig, o).hal == r.hal
  {
  }
}

/** Sequences of manager events, as the event loop runs them one at a time. */
module ManagerTrace {
  import opened Outcomes
  import opened Base
  import opened Driver
  import Models
  import Hal
  import opened Manager

  /**
   * One event on the manager's event loop. `RawBatch` is a batch handed over by
   * the worker: it is converted and published, or its validation error ends the
   * worker with ERROR. `WorkerExit` is the worker's loop ending on its own.
   */
  datatype Event =
    | SubscribeEv
    | UnsubscribeEv(id: QueueId)
    | RawBatchEv(batch: seq<Measurement>, now: real)
    | StartEv(connect: ConnectOutcome)
    | StopEv(releaseOk: bool)
    | UpdateConfigEv(config: Models.LidarConfig, motor: MotorOutcome)
    | WorkerExitEv(end: Hal.LoopEnd)

  function Apply(m: LidarManager, e: Event): LidarManager
  {
    match e
    case SubscribeEv => Subscribe(m).0
    case UnsubscribeEv(id) => Unsubscribe(m, id)
    case RawBatchEv(b, now) =>
      (match RawCallback(b, now)
       case Some(scan) => Publish(m, scan)
       case None => if m.hal.workers > 0 then m.(hal := Hal.WorkerExit(m.hal, Hal.Faulted)) else m)
    case StartEv(o) => Start(m, o).0
    case StopEv(ok) => Stop(m, ok)
    case UpdateConfigEv(c, o) => UpdateConfig(m, c, o)
    case WorkerExitEv(end) => if m.hal.workers > 0 then m.(hal := Hal.WorkerExit(m.hal, end)) else m
  }

  function Run(m: LidarManager, es: seq<Event>): LidarManager
  {
    if |es| == 0 then m else Apply(Run(m, es[..|es| - 1]), es[|es| - 1])
  }

  /** The scan an event publishes, if it publishes one. */
  function Published(e: Event): Option<Models.LidarScan>
  {
    if e.RawBatchEv? then RawCallback(e.batch, e.now) else None
  }

  /** Configurations reaching the manager are validated ones. */
  predicate ValidEvents(es: seq<Event>)
  {
    forall i :: 0 <= i < |es| && es[i].UpdateConfigEv? ==> Models.ValidConfig(es[i].config)
  }

  /** Every event keeps the manager's invariant: queues stay within capacity, at most one worker. */
  lemma {:induction false} RunKeepsInv(m: LidarManager, es: seq<Event>)
    requires Inv(m)
    requires ValidEvents(es)
    ensures Inv(Run(m, es))
    decreases |es|
  {
    if |es| > 0 {
      var front := es[..|es| - 1];
      assert ValidEvents(front) by {
        forall i | 0 <= i < |front| && front[i].UpdateConfigEv?
          ensures Models.ValidConfig(front[i].config)
        {
          assert front[i] == es[i];
        }
      }
      RunKeepsInv(m, front);
    }
  }

  /** Events that publish nothing leave the cached scan as it was. */
  lemma {:induction false} NoPublishKeepsCache(m: LidarManager, es: seq<Event>)
    requires forall i :: 0 <= i < |es| ==> Published(es[i]).None?
    ensures Run(m, es).lastScan == m.lastScan
    decreases |es|
  {
    if |es| > 0 {
      var n := |es|;
      var front := es[..n - 1];
      assert forall i :: 0 <= i < |front| ==> front[i] == es[i];
      NoPublishKeepsCache(m, front);
      ApplyLastScan(Run(m, front), es[n - 1]);
    }
  }

  /** The cached scan is the scan of the last event that publishes one. */
  lemma {:induction false} LastPublishWins(m: LidarManager, es: seq<Event>, i: nat)
    requires i < |es| && Published(es[i]).Some?
    requires forall j :: i < j < |es| ==> Published(es[j]).None?
    ensures Run(m, es).lastScan == Published(es[i])
    decreases |es|
  {
    var n := |es|;
    var front := es[..n - 1];
    ApplyLastScan(Run(m, front), es[n - 1]);
    if i < n - 1 {
      assert forall j :: 0 <= j < |front| ==> front[j] == es[j];
      LastPublishWins(m, front, i);
    }
  }

  /** An event caches the scan it publishes and leaves the cache alone otherwise. */
  lemma ApplyLastScan(m: LidarManager, e: Event)
    ensures Apply(m, e).lastScan == if Published(e).Some? then Published(e) else m.lastScan
  {
  }

  /** A new manager has no cached scan until the first event that publishes one. */
  lemma NoScanBeforeFirstPublish(config: Models.LidarConfig, es: seq<Event>)
    ensures Run(Create(config), es).lastScan.None? <==> forall i :: 0 <= i < |es| ==> Published(es[i]).None?
  {
    if exists i :: 0 <= i < |es| && Published(es[i]).Some? {
      var i := LastPublishing(es);
      LastPublishWins(Create(config), es, i);
    } else {
      NoPublishKeepsCache(Create(config), es);
    }
  }

  /** The index of the last publishing event. */
  lemma LastPublishing(es: seq<Event>) returns (i: nat)
    requires exists i :: 0 <= i < |es| && Published(es[i]).Some?
    ensures i < |es| && Published(es[i]).Some?
    ensures forall j :: i < j < |es| ==> Published(es[j]).None?
  {
    i := |es| - 1;
    while Published(es[i]).None?
      invariant 0 <= i < |es|
      invariant forall j :: i < j < |es| ==> Published(es[j]).None?
      invariant exists k :: 0 <= k <= i && Published(es[k]).Some?
      decreases i
    {
      i := i - 1;
    }
  }
}

=== FILE: models.dfy ===
/**
 * The validated data records of the service. Each record's field constraints
 * become a validity predicate, and each record's validating constructor becomes a
 * function that yields `None` exactly when validation would reject its arguments.
 */
module Models {
  import opened Outcomes

  /** A normalised LiDAR point: angle in degrees, distance, intensity. */
  datatype LidarPoint = LidarPoint(angle: real, distance: real, intensity: real)

  /** The field constraints of a point: angle in [0, 360], distance and intensity non-negative. */
  predicate ValidPoint(p: LidarPoint)
  {
    0.0 <= p.angle <= 360.0 && 0.0 <= p.distance && 0.0 <= p.intensity
  }

  /** Validating construction of a point. */
  function MakePoint(angle: real, distance: real, intensity: real): (r: Option<LidarPoint>)
    ensures r.Some? <==> 0.0 <= angle <= 360.0 && 0.0 <= distance && 0.0 <= intensity
    ensures r.Some? ==> ValidPoint(r.value)
    ensures r.Some? ==> r.value.angle == angle && r.value.distance == distance && r.value.intensity == intensity
  {
    var p := LidarPoint(angle, distance, intensity);
    if ValidPoint(p) then Some(p) else None
  }

  /** One full revolution: the capture time (left abstract) and the points in acquisition order. */
  datatype LidarScan = LidarScan(timestamp: real, points: seq<LidarPoint>)

  predicate ValidScan(s: LidarScan)
  {
    forall i :: 0 <= i < |s.points| ==> ValidPoint(s.points[i])
  }

  const DefaultBaudrate: int := 460800
  const DefaultTimeout: int := 3
  const DefaultMotorPwm: int := 600
  const MinMotorPwm: int := 0
  const MaxMotorPwm: int := 1023

  /** Configuration of one LiDAR unit. */
  datatype LidarConfig = LidarConfig(deviceType: string, port: string, baudrate: int, timeout: int, motorPwm: int)

  /** The only constrained field is the motor PWM. */
  predicate ValidConfig(c: LidarConfig)
  {
    MinMotorPwm <= c.motorPwm <= MaxMotorPwm
  }

  /**
   * Validating construction of a configuration: absent optional fields take their
   * defaults, and a motor PWM outside [0, 1023] is rejected.
   */
  function MakeConfig(deviceType: string, port: string, baudrate: Option<int>, timeout: Option<int>,
                      motorPwm: Option<int>): (r: Option<LidarConfig>)
    ensures r.Some? <==> (motorPwm.None? || MinMotorPwm <= motorPwm.value <= MaxMotorPwm)
    ensures r.Some? ==> ValidConfig(r.value)
    ensures r.Some? ==> r.value.deviceType == deviceType && r.value.port == port
    ensures r.Some? && baudrate.None? ==> r.value.baudrate == 460800
    ensures r.Some? && baudrate.Some? ==> r.value.baudrate == baudrate.value
    ensures r.Some? && timeout.None? ==> r.value.timeout == 3
    ensures r.Some? && timeout.Some? ==> r.value.timeout == timeout.value
    ensures r.Some? && motorPwm.None? ==> r.value.motorPwm == 600
    ensures r.Some? && motorPwm.Some? ==> r.value.motorPwm == motorPwm.value
  {
    var c := LidarConfig(deviceType, port,
                         if baudrate.Some? then baudrate.value else DefaultBaudrate,
                         if timeout.Some? then timeout.value else DefaultTimeout,
                         if motorPwm.Some? then motorPwm.value else DefaultMotorPwm);
    if ValidConfig(c) then Some(c) else None
  }

  const MinRestPort: int := 1024
  const MaxRestPort: int := 65535
  const DefaultRestPort: int := 8000

  /** Global network settings. */
  datatype NetworkConfig = NetworkConfig(restPort: int)

  predicate ValidNetworkConfig(n: NetworkConfig)
  {
    MinRestPort <= n.restPort <= MaxRestPort
  }

  /** Validating construction of the network settings; an absent port defaults to 8000. */
  function MakeNetworkConfig(restPort: Option<int>): (r: Option<NetworkConfig>)
    ensures r.Some? <==> (restPort.None? || 1024 <= restPort.value <= 65535)
    ensures r.Some? ==> ValidNetworkConfig(r.value)
    ensures r.Some? && restPort.None? ==> r.value.restPort == 8000
    ensures r.Some? && restPort.Some? ==> r.value.restPort == restPort.value
  {
    var n := NetworkConfig(if restPort.Some? then restPort.value else DefaultRestPort);
    if ValidNetworkConfig(n) then Some(n) else None
  }

  /** Every valid network setting is what validation builds from its own port. */
  lemma NetworkConfigRoundTrip(n: NetworkConfig)
    requires ValidNetworkConfig(n)
    ensures MakeNetworkConfig(Some(n.restPort)) == Some(n)
  {
  }
}

=== FILE: outcomes.dfy ===
/**
 * How the service's Python calls end: a value that may be `None`, and a call
 * that either returns or lets an exception escape.
 */
module Outcomes {

  /** A value that may be absent (Python's `Optional`). */
  datatype Option<+T> = None | Some(value: T)

  /** A call that returns normally, or raises `error` to its caller. */
  datatype Outcome<+E> = Returned | Raised(error: E)
}
